=== FILE: README.md ===
# Portfolio page: keyboard navigation, content panel and section display

A Dafny model of the discrete user-interface state of a decorative portfolio
site. The site's `main.js` draws an animated canvas, floats its channel tiles
and synthesizes hover and click tones. Under that, it keeps a small state
machine:

- the index of the keyboard-focused channel tile, moved by the arrow keys
  (the code assumes the tiles sit in two columns, in array order);
- a modal content panel that a tile opens with a heading and at most one
  paragraph (none for an unknown or missing key), that the close button hides
  and that Escape closes while it is shown.

`script.js` adds `openSection`, which shows a content area and fills it for
three known sections.

Modules:

- `Dom` (`dom.dfy`): elements by identity, with their `channel` class and the
  tile they sit inside, if any; channel tiles with their `data-key`
  and `data-title` attributes, `indexOf`, and the rendering of a missing
  attribute as `undefined`.
- `Keys` (`keys.dfy`): the `KeyboardEvent.key` names the listeners compare
  against.
- `Navigation` (`navigation.dfy`): the document keydown listener. It first
  re-syncs the index to the focused tile. Then it moves by an arrow and clamps
  the result. If the index names no tile, the `focus()` call throws.
- `Panel` (`panel.dfy`): `openPanel`, the close button and the Escape listener,
  over an explicit panel record.
- `Page` (`page.dfy`): the whole page as one state. A keydown first reaches
  the tile listener of the focused element, when that element is a tile or
  sits inside one (the event bubbles through the tile). It then reaches the
  document listener and finally the window listener. Mouse enter, tile click,
  close click and a focus move by the browser are the other events. Tones are
  recorded in a log.
- `Sections` (`sections.dfy`): `openSection` from `script.js`.

All strings are `seq<char>` and are built by plain concatenation. Non-ASCII
characters in the section texts are written as `\U{…}` escapes.

## Model

| member | source | states |
|---|---|---|
| Keys.KeyOf | main.js:171-231 | a key name decodes to a named key exactly when it is one the listeners compare against (Enter and " " at line 171, Escape at line 214, the arrows at lines 225-231), and the decoded key's name is the input |
| Keys.ArrowTestAgrees | main.js:225 | the `includes` test on the four arrow names holds exactly when the decoded key is an arrow |
| Dom.InterpolateCollisions | main.js:186 | a missing `data-title` renders as "undefined", so it renders like the literal title "undefined"; otherwise different titles render differently |
| Dom.IndexOf | main.js:223 | `indexOf` returns -1 exactly when the element is absent; otherwise it returns a position holding the element with no earlier occurrence |
| Dom.IndexOfDistinct | main.js:223 | over distinct tiles, `indexOf` of the tile at position p is p |
| Navigation.Resync | main.js:222-224 | a focused element with the channel class sets the index to its position among the tiles, or to -1 if it is not one of them; otherwise the index is kept |
| Navigation.Move | main.js:228-231 | with at least one tile and an index in [-1, n-1], every arrow leaves the index in [0, n-1]; a non-arrow key leaves it unchanged |
| Navigation.MoveIsClampedStride | main.js:228-231 | each arrow equals travelling its stride (+1, -1, +2, -2) and clamping into [0, n-1] |
| Navigation.MoveStrideAndEdges | main.js:228-231 | away from the edges the move is exactly the stride; Right on the last tile and Left on the first stay put; Down near the end gives n-1; Up near the start gives 0 |
| Navigation.MoveInverses | main.js:228-231 | Left undoes an unclamped Right and Up undoes an unclamped Down, and the other way round |
| Navigation.Navigate | main.js:221-234 | a non-arrow key only re-syncs; an arrow re-syncs then moves; the move focuses the tile when the index names one and throws otherwise; with a tile and an index in [-1, n-1] it always focuses a tile |
| Navigation.NoChannelsArrowThrows | main.js:228-232 | with zero tiles every arrow leaves the index at -1 or 0 and ends in the throwing `focus()` call |
| Navigation.NavigateFromFocusedChannel | main.js:222-231 | when tile p is focused, the listener acts from p whatever index it held |
| Panel.ParagraphFor | main.js:187-197 | the five known keys get a `<p>` paragraph each and every other key, or a missing key, gets nothing |
| Panel.OpenPanel | main.js:184-203 | the panel is shown with aria-hidden "false", scale(1) and opacity 1; its content starts with `<h2>title</h2>`; the content is longer than the heading exactly when the key is known, and then the rest is a paragraph |
| Panel.ClosePanel | main.js:206-210 | the close button hides the panel, sets aria-hidden "true" and shrinks it; content and opacity are unchanged |
| Panel.EscapeKey | main.js:213-217 | Escape on a shown panel closes it; any other key, or a hidden panel, leaves the panel unchanged |
| Panel.OpenPanelOverwrites | main.js:198-203 | opening does not depend on the panel's previous state |
| Panel.CloseIdempotent | main.js:206-210 | closing twice equals closing once |
| Panel.EscapeIdempotent | main.js:213-217 | Escape twice equals Escape once, and Escape on a shown panel equals the close button |
| Panel.TransitionsKeepConsistent | main.js:213-217 | the Escape listener keeps the hidden class and aria-hidden in agreement |
| Panel.CloseAfterOpen | main.js:198-215 | closing after opening keeps the opened content; Escape right after opening is the close button |
| Panel.ContentDeterminesKey | main.js:186-197 | for a fixed title, two known keys that give the same content are the same key |
| Page.Init | main.js:220 | the index starts at 0 and no tone has played; with at least one tile on well-formed markup the navigation invariant holds |
| Page.FocusedTile | main.js:222-223 | the tile the re-sync sees: the focused element's position among the tiles when that element is itself a tile, and none otherwise |
| Page.ListeningTile | main.js:170 | the tile whose own keydown listener a key reaches: the focused tile, or else the tile that contains the focused element; none when the focus is outside every tile |
| Page.TileKeyDown | main.js:170-176 | Enter or Space reaching a tile's listener plays the click tone and opens the panel with that tile's key and title; any other case changes nothing |
| Page.NavKeyDown | main.js:221-235 | on well-formed markup the new index is the arrow's move from the focused tile's position, or from the held index when no tile is focused; the navigation invariant is preserved; after an arrow the focused element is the tile at the new index and one hover tone is played; an arrow whose index names no tile throws at `focus()`, so the focus and the tone log stay as they were; a non-arrow key plays nothing and moves no focus |
| Page.OnKeyDown | main.js:170-235 | the three keydown listeners together set the index to the navigation move from the re-synced position, preserve the navigation invariant and never change the tiles; an arrow that throws at `focus()` leaves the focus and tone log unchanged |
| Page.OnMouseEnter | main.js:160-164 | hovering a tile appends exactly one hover tone to the log, and every other part of the page is unchanged |
| Page.OnTileClick | main.js:165-169 | clicking a tile plays the click tone and shows the panel with the tile's heading and paragraph; focus and index are unchanged |
| Page.Dispatch | main.js:159-235 | each event runs its own listener: a keydown moves the index as navigation does, opens the listening tile's panel with one click tone on Enter or Space, closes a shown panel on Escape without a tone, and leaves the panel alone on any other key; a mouse enter only adds a hover tone; a tile click plays the click tone and opens the panel with the tile's key and title; the close click closes the panel and nothing else; a focus move changes only the focused element; every event preserves the navigation invariant |
| Page.RunKeepsInv | main.js:220-235 | over any sequence of events, including focus moves the re-sync must catch up with, a page with at least one tile keeps its index on a tile |
| Page.HoversOnlyPlayTones | main.js:160-164 | leaving every mouse enter out of a run gives the same navigation, focus and panel state; hovering only plays tones |
| Page.ArrowMovesFromFocusedTile | main.js:222-231 | an arrow moves from the focused tile's position when a tile is focused, and from the held index otherwise |
| Page.EnterOrSpaceOpensTile | main.js:170-175 | Enter or Space on the focused tile c opens the panel with c's key and title, plays one click tone and re-syncs the index to c |
| Page.EnterOrSpaceInsideTile | main.js:170-175 | Enter or Space on an element inside tile c opens c's panel and plays one click tone, while the index is left unchanged because the re-sync looks only at the focused element |
| Page.EnterOrSpaceOffTile | main.js:170-175 | Enter or Space with the focus outside every tile opens nothing and plays nothing |
| Page.NoTilesArrowChangesNothingElse | main.js:228-233 | with zero tiles an arrow leaves the index at -1 or 0, throws before focusing or playing the hover tone, and leaves the focus, tone log and panel unchanged |
| Page.OtherKeysLeavePanel | main.js:170-217 | keys other than Enter, Space and Escape never change the panel |
| Page.EscapeOnPage | main.js:213-217 | Escape closes a shown panel and leaves a hidden one unchanged, wherever the focus is |
| Page.NonArrowOnlyResyncs | main.js:222-225 | a non-arrow key changes the index only by re-syncing it to the focused tile |
| Page.ArrowThenResyncIsStable | main.js:222-232 | after an arrow, the next key's re-sync finds the index already held |
| Sections.OpenSection | script.js:1-12 | the area is always shown; a known section's content starts with its heading ("Sobre mí", "Proyectos", "Contacto"); any other section leaves the content unchanged |
| Sections.OpenSectionIdempotent | script.js:1-12 | two calls with the same section give the same state as one |
| Sections.KnownSectionOverwrites | script.js:5-10 | a known section's result does not depend on the previous content |
| Sections.OpenSectionTwice | script.js:1-12 | a known second section wins outright; an unknown second section keeps what the first left |
| Sections.KnownSectionsDistinct | script.js:5-10 | the three known sections produce three different contents |

## Left out

- Canvas wave background and sparkles (main.js:6-68): floating-point trigonometry, the Canvas 2D API, wall-clock time and self-rescheduling `requestAnimationFrame`.
- Idle float animation of the tiles (main.js:127-156): `Math.random` initialisation, per-frame trigonometry, CSS transform strings.
- Tone synthesis (main.js:71-124): the Web Audio graph is a foreign API. A tone request is only recorded as `HoverTone` or `ClickTone` in the page's log.
- Resuming a suspended audio context (main.js:162, 166): `resume()` is asynchronous and its effect on audibility is not modelled.
- `preventDefault()` (main.js:172, 226): the browser's default key actions are not modelled.
- Browser behaviour around events: how the browser chooses the element a Tab press or a click focuses is not modelled; such a move is an arbitrary `Focus` event between other events. Native activation of the close button by keyboard is not modelled.
- Cursor follow (main.js:240-248): a pointer-to-transform mapping with no state.
- HTML meaning: content is the string assigned to `innerHTML`. The browser's re-serialisation, HTML parsing and the unescaped title are not modelled.
- Missing markup: if `getElementById` finds no element, the scripts throw. The model assumes the page provides `#panel`, `#panelContent`, `#closePanel` and `#content`.
- String width: JavaScript strings are UTF-16, while Dafny `char` is a Unicode scalar value. No contract states a length that depends on the difference.
- Panel.OpenPanel: the appended text is stated to open with `<p>` and close with `</p>`. It is not proved to contain no further paragraph. `Page.OnTileClick` and `Panel.CloseAfterOpen` give the exact content.
- Navigation.Move: the grid is taken to have two columns (stride 2 for Up/Down), as in the code. No other column count is modelled.

=== FILE: dom.dfy ===
/**
 The slice of the DOM the page's listeners read and write: elements are known
 by identity and by whether their class list holds `channel`; a channel tile
 also carries its `data-key` and `data-title` attributes, either of which may
 be absent.
 */
module Dom {

  datatype Option<T> = None | Some(value: T)

  /**
   An element, by identity; whether its class list contains `channel`; and
   the identity of the channel tile it sits inside, if any. An event whose
   target is such an element bubbles through that tile.
   */
  datatype Element = Element(id: nat, isChannel: bool, insideTile: Option<nat>)

  /** A channel tile: its element identity and its `dataset.key` / `dataset.title`. */
  datatype Channel = Channel(id: nat, key: Option<string>, title: Option<string>)

  /** The identities of a list of channels, in order. */
  function Ids(channels: seq<Channel>): (ids: seq<nat>)
    ensures |ids| == |channels|
    ensures forall i :: 0 <= i < |channels| ==> ids[i] == channels[i].id
  {
    seq(|channels|, i requires 0 <= i < |channels| => channels[i].id)
  }

  /** No element occurs twice: `querySelectorAll` yields each node once. */
  predicate Distinct<T(==)>(s: seq<T>) {
    forall i, j :: 0 <= i < j < |s| ==> s[i] != s[j]
  }

  /**
   How a template literal renders an attribute read from `dataset`: a missing
   attribute reads as `undefined`, which renders as the text "undefined".
   */
  function Interpolate(attr: Option<string>): string {
    match attr
    case Some(v) => v
    case None => "undefined"
  }

  /**
   Two attributes render alike exactly when they are equal, or when one is
   missing and the other is the literal text "undefined".
   */
  lemma InterpolateCollisions(a: Option<string>, b: Option<string>)
    ensures Interpolate(a) == Interpolate(b) <==>
              a == b || (a == None && b == Some("undefined")) || (a == Some("undefined") && b == None)
  {
  }

  /**
   `Array.prototype.indexOf` under strict equality: the position of the first
   occurrence of `x` in `s`, or -1 when there is none.
   */
  function IndexOf<T(==)>(s: seq<T>, x: T): (r: int)
    ensures -1 <= r < |s|
    ensures r == -1 <==> x !in s
    ensures 0 <= r ==> s[r] == x
    ensures forall j :: 0 <= j < r ==> s[j] != x
  {
    if |s| == 0 then -1
    else if s[0] == x then 0
    else
      var r := IndexOf(s[1..], x);
      if r == -1 then -1 else r + 1
  }

  /** In a list without repetitions, `indexOf` of the element at position `p` is `p`. */
  lemma IndexOfDistinct<T>(s: seq<T>, p: int)
    requires Distinct(s)
    requires 0 <= p < |s|
    ensures IndexOf(s, s[p]) == p
  {
  }
}

=== FILE: keys.dfy ===
/**
 The keys the page's keydown listeners react to. A DOM `KeyboardEvent.key` is a
 string; the listeners compare it against a handful of fixed names, so every
 other name is folded into `Other`.
 */
module Keys {

  datatype Key = Right | Left | Down | Up | Escape | Enter | Space | Other

  /** The `key` string the browser reports for each named key. */
  function NameOf(k: Key): string
    requires k != Other
  {
    match k
    case Right => "ArrowRight"
    case Left => "ArrowLeft"
    case Down => "ArrowDown"
    case Up => "ArrowUp"
    case Escape => "Escape"
    case Enter => "Enter"
    case Space => " "
  }

  /** The names of the four arrow keys, in the order the navigation listener lists them. */
  const ArrowNames: seq<string> := ["ArrowRight", "ArrowLeft", "ArrowDown", "ArrowUp"]

  /** Every name some listener of the page compares `key` against. */
  const KnownNames: set<string> := {"ArrowRight", "ArrowLeft", "ArrowDown", "ArrowUp", "Escape", "Enter", " "}

  predicate IsArrow(k: Key) {
    k.Right? || k.Left? || k.Down? || k.Up?
  }

  /** Reads a `KeyboardEvent.key` string; names no listener compares against become `Other`. */
  function KeyOf(name: string): (k: Key)
    ensures k == Other <==> name !in KnownNames
    ensures k != Other ==> NameOf(k) == name
  {
    if name == "ArrowRight" then Right
    else if name == "ArrowLeft" then Left
    else if name == "ArrowDown" then Down
    else if name == "ArrowUp" then Up
    else if name == "Escape" then Escape
    else if name == "Enter" then Enter
    else if name == " " then Space
    else Other
  }

  /** Reading back the name of a named key gives the key again. */
  lemma KeyNameRoundTrip(k: Key)
    requires k != Other
    ensures KeyOf(NameOf(k)) == k
  {
  }

  /** The navigation listener's `includes` test on the raw name agrees with `IsArrow` on the decoded key. */
  lemma ArrowTestAgrees(name: string)
    ensures IsArrow(KeyOf(name)) <==> name in ArrowNames
  {
  }
}

=== FILE: navigation.dfy ===
/**
 Keyboard navigation over the channel grid (the document-level keydown
 listener of main.js). The state is the integer `focusedIndex`; a key first
 re-syncs it to the focused channel, then an arrow moves it by a fixed stride
 (one for Right/Left, two for Down/Up, as if the tiles sat in two columns in
 array order; the code assumes this layout) and clamps it into the grid.
 */
module Navigation {
  import opened Dom
  import opened Keys

  /** `Math.min` and `Math.max` on the integers the listener works with. */
  function Min(a: int, b: int): int { if a <= b then a else b }
  function Max(a: int, b: int): int { if a >= b then a else b }

  /**
   Step 1: when the focused element carries the `channel` class, the index
   becomes that element's position among the channels (-1 when it is not one
   of them); otherwise the previous index is kept.
   */
  function Resync(ids: seq<nat>, active: Option<Element>, i: int): (j: int)
    ensures (active.None? || !active.value.isChannel) ==> j == i
    ensures active.Some? && active.value.isChannel && active.value.id in ids ==>
              0 <= j < |ids| && ids[j] == active.value.id
    ensures active.Some? && active.value.isChannel && active.value.id !in ids ==> j == -1
  {
    if active.Some? && active.value.isChannel then IndexOf(ids, active.value.id) else i
  }

  /** Step 2: the arrow move over `n` channels; any other key leaves the index alone. */
  function Move(n: int, i: int, k: Key): (j: int)
    ensures !IsArrow(k) ==> j == i
    ensures IsArrow(k) && n >= 1 && -1 <= i < n ==> 0 <= j < n
  {
    match k
    case Right => Min(n - 1, i + 1)
    case Left => Max(0, i - 1)
    case Down => Min(n - 1, i + 2)
    case Up => Max(0, i - 2)
    case _ => i
  }

  /** The signed distance an arrow asks to travel along the channel order. */
  function Stride(k: Key): int {
    match k
    case Right => 1
    case Left => -1
    case Down => 2
    case Up => -2
    case _ => 0
  }

  /** `x` forced into `[lo, hi]`. */
  function Clamp(lo: int, hi: int, x: int): (r: int)
    requires lo <= hi
    ensures lo <= r <= hi
    ensures lo <= x <= hi ==> r == x
    ensures x < lo ==> r == lo
    ensures hi < x ==> r == hi
  {
    if x < lo then lo else if hi < x then hi else x
  }

  /**
   Reference reading of the move: from any index the listener can hold, an
   arrow travels its stride and the result is clamped into the grid.
   */
  lemma MoveIsClampedStride(n: int, i: int, k: Key)
    requires n >= 1 && -1 <= i < n
    requires IsArrow(k)
    ensures Move(n, i, k) == Clamp(0, n - 1, i + Stride(k))
  {
  }

  /** Away from the edges the move is exactly the stride; at the edges it stays on the first or last tile. */
  lemma MoveStrideAndEdges(n: int, i: int)
    requires n >= 1 && 0 <= i < n
    ensures i + 1 <= n - 1 ==> Move(n, i, Right) == i + 1
    ensures i == n - 1 ==> Move(n, i, Right) == n - 1
    ensures 1 <= i ==> Move(n, i, Left) == i - 1
    ensures i == 0 ==> Move(n, i, Left) == 0
    ensures i + 2 <= n - 1 ==> Move(n, i, Down) == i + 2
    ensures n - 2 <= i ==> Move(n, i, Down) == n - 1
    ensures 2 <= i ==> Move(n, i, Up) == i - 2
    ensures i <= 1 ==> Move(n, i, Up) == 0
  {
  }

  /** Left undoes Right, and Up undoes Down, whenever the first move was not clamped. */
  lemma MoveInverses(n: int, i: int)
    requires n >= 1 && 0 <= i
    ensures i + 1 <= n - 1 ==> Move(n, Move(n, i, Right), Left) == i
    ensures i + 2 <= n - 1 ==> Move(n, Move(n, i, Down), Up) == i
    ensures 1 <= i < n ==> Move(n, Move(n, i, Left), Right) == i
    ensures 2 <= i < n ==> Move(n, Move(n, i, Up), Down) == i
  {
  }

  /**
   What the listener does after computing the index: an arrow focuses
   `channels[focusedIndex]` and plays the hover tone (`Focused`), or, when that
   index names no channel, `channels[focusedIndex]` is `undefined` and calling
   `focus()` on it throws before the tone (`Threw`); other keys do nothing more.
   */
  datatype NavEffect = Ignored | Focused(pos: nat) | Threw

  datatype NavStep = NavStep(index: int, effect: NavEffect)

  /** One keydown through the navigation listener, over the channel identities `ids`. */
  function Navigate(ids: seq<nat>, active: Option<Element>, i: int, k: Key): (s: NavStep)
    ensures !IsArrow(k) ==> s.index == Resync(ids, active, i) && s.effect == Ignored
    ensures IsArrow(k) ==> s.index == Move(|ids|, Resync(ids, active, i), k)
    ensures IsArrow(k) && 0 <= s.index < |ids| ==> s.effect == Focused(s.index)
    ensures IsArrow(k) && !(0 <= s.index < |ids|) ==> s.effect == Threw
    ensures IsArrow(k) && |ids| >= 1 && -1 <= i < |ids| ==> 0 <= s.index < |ids| && s.effect.Focused?
  {
    var j := Resync(ids, active, i);
    if !IsArrow(k) then NavStep(j, Ignored)
    else
      var m := Move(|ids|, j, k);
      NavStep(m, if 0 <= m < |ids| then Focused(m) else Threw)
  }

  /**
   With no channels at all, every arrow key ends in the throwing `focus()`
   call, and the index the listener can hold stays at -1 or 0.
   */
  lemma NoChannelsArrowThrows(active: Option<Element>, i: int, k: Key)
    requires IsArrow(k)
    requires -1 <= i <= 0
    ensures Navigate([], active, i, k).effect == Threw
    ensures Navigate([], active, i, k).index in {-1, 0}
  {
  }

  /**
   When the focused element is the channel at position `p`, the listener acts
   from `p` whatever index it held before.
   */
  lemma NavigateFromFocusedChannel(ids: seq<nat>, active: Option<Element>, i: int, k: Key, p: int)
    requires Distinct(ids)
    requires 0 <= p < |ids|
    requires active.Some? && active.value.id == ids[p] && active.value.isChannel
    ensures !IsArrow(k) ==> Navigate(ids, active, i, k) == NavStep(p, Ignored)
    ensures IsArrow(k) ==> Navigate(ids, active, i, k) == NavStep(Move(|ids|, p, k), Focused(Move(|ids|, p, k)))
  {
    IndexOfDistinct(ids, p);
  }
}

=== FILE: page.dfy ===
/**
 The page as one state machine: the channel tiles, the focused element, the
 navigation listener's `focusedIndex`, the panel, and a log of the tones the
 listeners asked for. One keydown runs, in dispatch order, the focused
 channel's own listener (Enter/Space open the panel), the document's
 navigation listener, and the window's Escape listener.
 */
module Page {
  import opened Dom
  import opened Keys
  import Navigation
  import opened Panel

  /** A tone request, recorded instead of building the audio graph. */
  datatype Tone = HoverTone | ClickTone

  datatype Page = Page(
    channels: seq<Channel>,
    active: Option<Element>,
    focusedIndex: int,
    panel: Panel,
    tones: seq<Tone>)

  /**
   The events the page's listeners handle; a position names a channel tile.
   `Focus` is the browser moving the focus (Tab, a click) to an element or
   away from every element; no listener of the page runs for it.
   */
  datatype Event = KeyDown(key: Key) | MouseEnter(pos: nat) | ChannelClick(pos: nat) | CloseClick | Focus(el: Option<Element>)

  /**
   The markup the script relies on: channel elements are distinct, and an
   element carries the `channel` class exactly when it is one of the tiles
   collected at load time.
   */
  predicate WellFormed(p: Page) {
    && Distinct(Ids(p.channels))
    && (p.active.Some? ==> (p.active.value.isChannel <==> p.active.value.id in Ids(p.channels)))
  }

  /** The navigation invariant: the index names a tile. */
  predicate Inv(p: Page) {
    WellFormed(p) && 0 <= p.focusedIndex < |p.channels|
  }

  /** The page right after the script has run: `focusedIndex` starts at 0 and no tone has played. */
  function Init(channels: seq<Channel>, active: Option<Element>, panel: Panel): (p: Page)
    ensures p.focusedIndex == 0 && p.tones == [] && p.channels == channels
    ensures WellFormed(p) && |channels| >= 1 ==> Inv(p)
  {
    Page(channels, active, 0, panel, [])
  }

  /** The position of the focused tile, if the focused element is itself one of the tiles. */
  function FocusedTile(p: Page): (c: Option<nat>)
    ensures c.Some? ==> c.value < |p.channels| && p.active.Some? && p.active.value.id == p.channels[c.value].id
    ensures c.None? ==> p.active.None? || p.active.value.id !in Ids(p.channels)
  {
    if p.active.Some? && p.active.value.id in Ids(p.channels) then
      Some(IndexOf(Ids(p.channels), p.active.value.id) as nat)
    else None
  }

  /**
   The tile whose own keydown listener a key reaches: the focused element
   when it is a tile, or else the tile the focused element sits inside, since
   the event bubbles through it.
   */
  function ListeningTile(p: Page): (c: Option<nat>)
    ensures FocusedTile(p).Some? ==> c == FocusedTile(p)
    ensures FocusedTile(p).None? && c.Some? ==>
              c.value < |p.channels| && p.active.Some? && p.active.value.insideTile == Some(p.channels[c.value].id)
    ensures c.None? ==>
              p.active.None? ||
              (p.active.value.id !in Ids(p.channels) &&
               (p.active.value.insideTile.None? || p.active.value.insideTile.value !in Ids(p.channels)))
  {
    if FocusedTile(p).Some? then FocusedTile(p)
    else if p.active.Some? && p.active.value.insideTile.Some? && p.active.value.insideTile.value in Ids(p.channels) then
      Some(IndexOf(Ids(p.channels), p.active.value.insideTile.value) as nat)
    else None
  }

  /** `openPanel` with the tile's data attributes. */
  function OpenFromTile(p: Page, c: nat): Panel
    requires c < |p.channels|
  {
    OpenPanel(p.panel, p.channels[c].key, p.channels[c].title)
  }

  /** The tile's own keydown listener: Enter or Space plays the click tone and opens the panel. */
  function TileKeyDown(p: Page, k: Key): (r: Page)
    ensures r.channels == p.channels && r.active == p.active && r.focusedIndex == p.focusedIndex
    ensures !(k == Enter || k == Space) || ListeningTile(p).None? ==> r == p
    ensures (k == Enter || k == Space) && ListeningTile(p).Some? ==>
              r.tones == p.tones + [ClickTone] && r.panel == OpenFromTile(p, ListeningTile(p).value)
  {
    var c := ListeningTile(p);
    if (k == Enter || k == Space) && c.Some? then
      p.(tones := p.tones + [ClickTone], panel := OpenFromTile(p, c.value))
    else p
  }

  /** The index the navigation listener moves from: the focused tile's position, else the index it held. */
  function StartIndex(p: Page): int {
    if FocusedTile(p).Some? then FocusedTile(p).value else p.focusedIndex
  }

  /** The document's keydown listener: re-sync, move, then focus the tile and play the hover tone. */
  function NavKeyDown(p: Page, k: Key): (r: Page)
    ensures r.channels == p.channels && r.panel == p.panel
    ensures !IsArrow(k) ==> r.active == p.active && r.tones == p.tones
    ensures WellFormed(p) ==> r.focusedIndex == Navigation.Move(|p.channels|, StartIndex(p), k)
    ensures Inv(p) ==> Inv(r)
    ensures Inv(p) && IsArrow(k) ==>
              r.active == Some(Element(p.channels[r.focusedIndex].id, true, None)) && r.tones == p.tones + [HoverTone]
    ensures IsArrow(k) && !(0 <= r.focusedIndex < |p.channels|) ==> r.active == p.active && r.tones == p.tones
  {
    var s := Navigation.Navigate(Ids(p.channels), p.active, p.focusedIndex, k);
    match s.effect
    case Focused(pos) =>
      p.(focusedIndex := s.index, active := Some(Element(p.channels[pos].id, true, None)), tones := p.tones + [HoverTone])
    case _ =>
      p.(focusedIndex := s.index)
  }

  /** The window's keydown listener. */
  function WindowKeyDown(p: Page, k: Key): Page {
    p.(panel := EscapeKey(p.panel, k))
  }

  /** One keydown, through the three listeners in dispatch order. */
  function OnKeyDown(p: Page, k: Key): (r: Page)
    ensures r.channels == p.channels
    ensures WellFormed(p) ==> r.focusedIndex == Navigation.Move(|p.channels|, StartIndex(p), k)
    ensures Inv(p) ==> Inv(r)
    ensures IsArrow(k) && !(0 <= r.focusedIndex < |p.channels|) ==> r.active == p.active && r.tones == p.tones
  {
    WindowKeyDown(NavKeyDown(TileKeyDown(p, k), k), k)
  }

  /** A tile's mouseenter listener: the hover tone, nothing else. */
  function OnMouseEnter(p: Page, c: nat): (r: Page)
    requires c < |p.channels|
    ensures |r.tones| == |p.tones| + 1 && r.tones[..|p.tones|] == p.tones && r.tones[|p.tones|] == HoverTone
    ensures r.(tones := p.tones) == p
  {
    p.(tones := p.tones + [HoverTone])
  }

  /** A tile's click listener: the click tone and `openPanel` with the tile's attributes. */
  function OnTileClick(p: Page, c: nat): (r: Page)
    requires c < |p.channels|
    ensures r.tones == p.tones + [ClickTone]
    ensures !r.panel.hidden && r.panel.ariaHidden == "false"
    ensures r.panel.content == Heading(p.channels[c].title) + ParagraphFor(p.channels[c].key)
    ensures r.channels == p.channels && r.active == p.active && r.focusedIndex == p.focusedIndex
  {
    p.(tones := p.tones + [ClickTone], panel := OpenFromTile(p, c))
  }

  predicate ValidEvent(channels: seq<Channel>, e: Event) {
    match e
    case MouseEnter(c) => c < |channels|
    case ChannelClick(c) => c < |channels|
    case Focus(el) => el.Some? ==> (el.value.isChannel <==> el.value.id in Ids(channels))
    case _ => true
  }

  /** One event, handed to the listener registered for it. */
  function Dispatch(p: Page, e: Event): (r: Page)
    requires ValidEvent(p.channels, e)
    ensures r.channels == p.channels
    ensures Inv(p) ==> Inv(r)
    ensures e.KeyDown? && WellFormed(p) ==> r.focusedIndex == Navigation.Move(|p.channels|, StartIndex(p), e.key)
    ensures e.KeyDown? && e.key == Escape ==> r.panel == EscapeKey(p.panel, Escape) && r.tones == p.tones
    ensures e.KeyDown? && (e.key == Enter || e.key == Space) && ListeningTile(p).Some? ==>
              r.panel == OpenFromTile(p, ListeningTile(p).value) && r.tones == p.tones + [ClickTone]
    ensures e.KeyDown? && (e.key == Enter || e.key == Space) && ListeningTile(p).None? ==>
              r.panel == p.panel && r.tones == p.tones
    ensures e.KeyDown? && !IsArrow(e.key) && e.key != Enter && e.key != Space && e.key != Escape ==>
              r.panel == p.panel && r.tones == p.tones
    ensures e.KeyDown? && IsArrow(e.key) ==> r.panel == p.panel
    ensures e.MouseEnter? ==> r.(tones := p.tones) == p && r.tones == p.tones + [HoverTone]
    ensures e.ChannelClick? ==>
              && r.panel == OpenPanel(p.panel, p.channels[e.pos].key, p.channels[e.pos].title)
              && r.tones == p.tones + [ClickTone]
              && r.active == p.active && r.focusedIndex == p.focusedIndex
    ensures e.CloseClick? ==> r.panel == ClosePanel(p.panel) && r.(panel := p.panel) == p
    ensures e.Focus? ==> r.active == e.el && r.(active := p.active) == p
  {
    match e
    case KeyDown(k) => OnKeyDown(p, k)
    case MouseEnter(c) => OnMouseEnter(p, c)
    case ChannelClick(c) => OnTileClick(p, c)
    case CloseClick => p.(panel := ClosePanel(p.panel))
    case Focus(el) => p.(active := el)
  }

  /** A run of events, handled one after another. */
  function Run(p: Page, es: seq<Event>): Page
    requires forall i :: 0 <= i < |es| ==> ValidEvent(p.channels, es[i])
    decreases |es|
  {
    if |es| == 0 then p else Run(Dispatch(p, es[0]), es[1..])
  }

  /** Over any run of events, a page with at least one tile keeps `focusedIndex` on a tile. */
  lemma {:induction false} RunKeepsInv(p: Page, es: seq<Event>)
    requires forall i :: 0 <= i < |es| ==> ValidEvent(p.channels, es[i])
    requires Inv(p)
    ensures Inv(Run(p, es))
    ensures Run(p, es).channels == p.channels
    decreases |es|
  {
    if |es| > 0 {
      var q := Dispatch(p, es[0]);
      assert forall i :: 0 <= i < |es[1..]| ==> ValidEvent(q.channels, es[1..][i]);
      RunKeepsInv(q, es[1..]);
    }
  }

  /**
   Enter or Space on a focused tile opens the panel with that tile's key and
   title and plays the click tone; the navigation index re-syncs to the tile.
   */
  lemma EnterOrSpaceOpensTile(p: Page, k: Key, c: nat)
    requires WellFormed(p)
    requires c < |p.channels|
    requires p.active.Some? && p.active.value.id == p.channels[c].id
    requires k == Enter || k == Space
    ensures OnKeyDown(p, k).panel == OpenPanel(p.panel, p.channels[c].key, p.channels[c].title)
    ensures OnKeyDown(p, k).tones == p.tones + [ClickTone]
    ensures OnKeyDown(p, k).focusedIndex == c
  {
    IndexOfDistinct(Ids(p.channels), c);
    Navigation.NavigateFromFocusedChannel(Ids(p.channels), p.active, p.focusedIndex, k, c);
  }

  /**
   Enter or Space on an element inside tile c (not a tile itself) still
   reaches c's listener and opens c's panel, while the re-sync, which looks
   only at the focused element, leaves the index where it was.
   */
  lemma EnterOrSpaceInsideTile(p: Page, k: Key, c: nat)
    requires WellFormed(p)
    requires c < |p.channels|
    requires p.active.Some? && p.active.value.id !in Ids(p.channels)
    requires p.active.value.insideTile == Some(p.channels[c].id)
    requires k == Enter || k == Space
    ensures OnKeyDown(p, k).panel == OpenPanel(p.panel, p.channels[c].key, p.channels[c].title)
    ensures OnKeyDown(p, k).tones == p.tones + [ClickTone]
    ensures OnKeyDown(p, k).focusedIndex == p.focusedIndex
  {
    IndexOfDistinct(Ids(p.channels), c);
  }

  /** Enter and Space open the panel only from within a tile: with the focus elsewhere nothing is opened or played. */
  lemma EnterOrSpaceOffTile(p: Page, k: Key)
    requires k == Enter || k == Space
    requires ListeningTile(p).None?
    ensures OnKeyDown(p, k).panel == p.panel
    ensures OnKeyDown(p, k).tones == p.tones
  {
  }

  /** Keys other than Enter, Space and Escape never touch the panel. */
  lemma OtherKeysLeavePanel(p: Page, k: Key)
    requires k != Enter && k != Space && k != Escape
    ensures OnKeyDown(p, k).panel == p.panel
  {
  }

  /** Escape closes a shown panel and leaves a hidden one as it is, wherever the focus is. */
  lemma EscapeOnPage(p: Page)
    ensures !p.panel.hidden ==> OnKeyDown(p, Escape).panel == ClosePanel(p.panel)
    ensures p.panel.hidden ==> OnKeyDown(p, Escape).panel == p.panel
  {
  }

  /**
   A non-arrow key changes `focusedIndex` only through the re-sync, which
   on a well-formed page lands on the focused tile.
   */
  lemma NonArrowOnlyResyncs(p: Page, k: Key)
    requires WellFormed(p)
    requires !IsArrow(k)
    ensures FocusedTile(p).None? ==> OnKeyDown(p, k).focusedIndex == p.focusedIndex
    ensures FocusedTile(p).Some? ==> OnKeyDown(p, k).focusedIndex == FocusedTile(p).value
  {
    if FocusedTile(p).Some? {
      Navigation.NavigateFromFocusedChannel(Ids(p.channels), p.active, p.focusedIndex, k, FocusedTile(p).value);
    }
  }

  /**
   After an arrow key the focused element is the tile at `focusedIndex`, so
   the next key's re-sync finds the index it already holds.
   */
  lemma ArrowThenResyncIsStable(p: Page, k: Key, k2: Key)
    requires Inv(p)
    requires IsArrow(k)
    requires !IsArrow(k2)
    ensures OnKeyDown(OnKeyDown(p, k), k2).focusedIndex == OnKeyDown(p, k).focusedIndex
  {
    var q := OnKeyDown(p, k);
    IndexOfDistinct(Ids(q.channels), q.focusedIndex);
    Navigation.NavigateFromFocusedChannel(Ids(q.channels), q.active, q.focusedIndex, k2, q.focusedIndex);
  }

  /** The page without its tone log: everything a tone request cannot affect. */
  function Silent(p: Page): Page {
    p.(tones := [])
  }

  /** The events of a run other than mouse enters. */
  function WithoutHovers(es: seq<Event>): (fs: seq<Event>)
    ensures forall i :: 0 <= i < |fs| ==> !fs[i].MouseEnter? && fs[i] in es
    decreases |es|
  {
    if |es| == 0 then []
    else if es[0].MouseEnter? then WithoutHovers(es[1..])
    else [es[0]] + WithoutHovers(es[1..])
  }

  /** Each listener acts the same whatever tones have played before. */
  lemma DispatchIgnoresTones(p: Page, q: Page, e: Event)
    requires ValidEvent(p.channels, e)
    requires Silent(p) == Silent(q)
    ensures Silent(Dispatch(p, e)) == Silent(Dispatch(q, e))
  {
  }

  /**
   Hovering tiles only plays tones: a run with its mouse enters left out ends
   in the same navigation, focus and panel state.
   */
  lemma {:induction false} HoversOnlyPlayTones(p: Page, q: Page, es: seq<Event>)
    requires forall i :: 0 <= i < |es| ==> ValidEvent(p.channels, es[i])
    requires Silent(p) == Silent(q)
    ensures forall i :: 0 <= i < |WithoutHovers(es)| ==> ValidEvent(q.channels, WithoutHovers(es)[i])
    ensures Silent(Run(p, es)) == Silent(Run(q, WithoutHovers(es)))
    decreases |es|
  {
    var fs := WithoutHovers(es);
    assert q.channels == p.channels;
    forall i | 0 <= i < |fs|
      ensures ValidEvent(q.channels, fs[i])
    {
      var j :| 0 <= j < |es| && es[j] == fs[i];
    }
    if |es| > 0 {
      var p' := Dispatch(p, es[0]);
      assert forall i :: 0 <= i < |es[1..]| ==> ValidEvent(p'.channels, es[1..][i]);
      if es[0].MouseEnter? {
        assert Silent(p') == Silent(q);
        HoversOnlyPlayTones(p', q, es[1..]);
      } else {
        var q' := Dispatch(q, es[0]);
        DispatchIgnoresTones(p, q, es[0]);
        HoversOnlyPlayTones(p', q', es[1..]);
        assert fs == [es[0]] + WithoutHovers(es[1..]);
        assert fs[1..] == WithoutHovers(es[1..]);
      }
    }
  }

  /** On a well-formed page an arrow key moves from the focused tile, or from the held index when no tile is focused. */
  lemma ArrowMovesFromFocusedTile(p: Page, k: Key)
    requires WellFormed(p)
    requires IsArrow(k)
    ensures FocusedTile(p).Some? ==> OnKeyDown(p, k).focusedIndex == Navigation.Move(|p.channels|, FocusedTile(p).value, k)
    ensures FocusedTile(p).None? ==> OnKeyDown(p, k).focusedIndex == Navigation.Move(|p.channels|, p.focusedIndex, k)
  {
  }

  /**
   With no tiles, an arrow key throws at `focus()`: the focus stays where it
   was, no hover tone plays, and the index the listener can hold stays at -1 or 0.
   */
  lemma NoTilesArrowChangesNothingElse(p: Page, k: Key)
    requires |p.channels| == 0
    requires IsArrow(k)
    requires -1 <= p.focusedIndex <= 0
    ensures OnKeyDown(p, k).active == p.active
    ensures OnKeyDown(p, k).tones == p.tones
    ensures OnKeyDown(p, k).panel == p.panel
    ensures OnKeyDown(p, k).focusedIndex in {-1, 0}
  {
  }
}

=== FILE: panel.dfy ===
/**
 The modal content panel of main.js: `openPanel` writes a heading and at most
 one paragraph chosen by the channel key and shows the panel; the close
 button hides it; Escape presses the close button while the panel is shown.
 Content is the string assigned to `innerHTML`, built by plain concatenation
 (the title is inserted unescaped; its HTML meaning is not modelled).
 */
module Panel {
  import opened Dom
  import opened Keys

  /**
   The panel's observable state: whether its class list holds `hidden`, its
   `aria-hidden` attribute, the content string, and the inline `transform`
   and `opacity` styles.
   */
  datatype Panel = Panel(hidden: bool, ariaHidden: string, content: string, transform: string, opacity: string)

  const OpenTransform: string := "translate(-50%, -50%) scale(1)"
  const ClosedTransform: string := "translate(-50%, -50%) scale(0.96)"

  /** The channel keys that have a paragraph of their own. */
  const KnownKeys: set<string> := {"projects", "about", "contact", "cv", "recs"}

  /** The text inside each key's paragraph. */
  const ProjectsText: string :=
    "Here are some highlighted projects. Add project cards with images, links and descriptions here."
  const AboutText: string :=
    "A short bio: I'm a developer who loves interactive UI and game-inspired interfaces."
  const ContactText: string :=
    "Email: <a href=\"mailto:you@example.com\">you@example.com</a><br>Socials: GitHub, LinkedIn"
  const CvText: string :=
    "Download my CV: <a href=\"#\">Download</a>"
  const RecsText: string :=
    "Here are recommendations and testimonials from colleagues and clients."

  /** `text` wrapped in a `<p>` element. */
  function Para(text: string): (s: string)
    ensures IsParagraph(s)
  {
    var s := "<p>" + text + "</p>";
    assert s[..3] == "<p>";
    assert s[|s| - 4..] == "</p>";
    s
  }

  /** The heading `openPanel` always starts with. */
  function Heading(title: Option<string>): string {
    "<h2>" + Interpolate(title) + "</h2>"
  }

  /** Paragraph markup: the string opens with `<p>` and closes with `</p>`. */
  predicate IsParagraph(s: string) {
    |s| >= 7 && s[..3] == "<p>" && s[|s| - 4..] == "</p>"
  }

  /** The paragraph appended for a key: one of five fixed paragraphs, or nothing for any other key. */
  function ParagraphFor(key: Option<string>): (par: string)
    ensures key.Some? && key.value in KnownKeys ==> IsParagraph(par)
    ensures !(key.Some? && key.value in KnownKeys) ==> par == ""
  {
    if key == Some("projects") then Para(ProjectsText)
    else if key == Some("about") then Para(AboutText)
    else if key == Some("contact") then Para(ContactText)
    else if key == Some("cv") then Para(CvText)
    else if key == Some("recs") then Para(RecsText)
    else ""
  }

  /** The panel is shown exactly when `aria-hidden` says "false", and hidden exactly when it says "true". */
  predicate Consistent(p: Panel) {
    (p.hidden && p.ariaHidden == "true") || (!p.hidden && p.ariaHidden == "false")
  }

  /** `openPanel(key, title)`: content is the heading then the key's paragraph, and the panel is shown. */
  function OpenPanel(p: Panel, key: Option<string>, title: Option<string>): (r: Panel)
    ensures !r.hidden && r.ariaHidden == "false" && Consistent(r)
    ensures r.transform == OpenTransform && r.opacity == "1"
    ensures |Heading(title)| <= |r.content| && r.content[..|Heading(title)|] == Heading(title)
    ensures |r.content| > |Heading(title)| <==> key.Some? && key.value in KnownKeys
    ensures key.Some? && key.value in KnownKeys ==> IsParagraph(r.content[|Heading(title)|..])
  {
    var html := Heading(title) + ParagraphFor(key);
    assert html[..|Heading(title)|] == Heading(title);
    assert html[|Heading(title)|..] == ParagraphFor(key);
    Panel(false, "false", html, OpenTransform, "1")
  }

  /** The close button's click listener: hide, mark `aria-hidden`, shrink; content and opacity stay. */
  function ClosePanel(p: Panel): (r: Panel)
    ensures r.hidden && r.ariaHidden == "true" && Consistent(r)
    ensures r.transform == ClosedTransform
    ensures r.content == p.content && r.opacity == p.opacity
  {
    p.(hidden := true, ariaHidden := "true", transform := ClosedTransform)
  }

  /** The window's keydown listener: Escape clicks the close button, but only while the panel is shown. */
  function EscapeKey(p: Panel, k: Key): (r: Panel)
    ensures k != Escape ==> r == p
    ensures p.hidden ==> r == p
    ensures k == Escape ==> r.hidden
    ensures k == Escape && !p.hidden ==> r.ariaHidden == "true" && r.content == p.content
  {
    if k == Escape && !p.hidden then ClosePanel(p) else p
  }

  /** Opening replaces every part of the panel's state: the result does not depend on the panel before. */
  lemma OpenPanelOverwrites(p: Panel, q: Panel, key: Option<string>, title: Option<string>)
    ensures OpenPanel(p, key, title) == OpenPanel(q, key, title)
  {
  }

  /** Closing twice is closing once. */
  lemma CloseIdempotent(p: Panel)
    ensures ClosePanel(ClosePanel(p)) == ClosePanel(p)
  {
  }

  /** Escape twice is Escape once, and Escape on a shown panel is the close button. */
  lemma EscapeIdempotent(p: Panel, k: Key)
    ensures EscapeKey(EscapeKey(p, k), k) == EscapeKey(p, k)
    ensures k == Escape && !p.hidden ==> EscapeKey(p, k) == ClosePanel(p)
  {
  }

  /** Every transition keeps `hidden` and `aria-hidden` in agreement once they agree. */
  lemma TransitionsKeepConsistent(p: Panel, k: Key)
    requires Consistent(p)
    ensures Consistent(EscapeKey(p, k))
  {
  }

  /** Open then close leaves the opened content in place behind the hidden panel. */
  lemma CloseAfterOpen(p: Panel, key: Option<string>, title: Option<string>)
    ensures ClosePanel(OpenPanel(p, key, title)).content == Heading(title) + ParagraphFor(key)
    ensures EscapeKey(OpenPanel(p, key, title), Escape) == ClosePanel(OpenPanel(p, key, title))
  {
  }

  /** For a fixed title, the content tells the five known keys apart. */
  lemma ContentDeterminesKey(p: Panel, q: Panel, k1: string, k2: string, title: Option<string>)
    requires k1 in KnownKeys && k2 in KnownKeys
    requires OpenPanel(p, Some(k1), title).content == OpenPanel(q, Some(k2), title).content
    ensures k1 == k2
  {
    var h := Heading(title);
    var c1 := h + ParagraphFor(Some(k1));
    var c2 := h + ParagraphFor(Some(k2));
    assert c1[|h|..] == ParagraphFor(Some(k1));
    assert c2[|h|..] == ParagraphFor(Some(k2));
    assert ParagraphFor(Some(k1)) == ParagraphFor(Some(k2));
  }
}

=== FILE: sections.dfy ===
/**
 script.js: `openSection(section)` shows the `#content` area and, for the
 three sections it knows, replaces its content with that section's fixed
 heading and paragraph.
 */
module Sections {

  /** The `#content` element: whether its class list holds `hidden`, and its content string. */
  datatype ContentArea = ContentArea(hidden: bool, html: string)

  const KnownSections: set<string> := {"about", "projects", "contact"}

  /** The heading each known section's content begins with. */
  function TitleOf(section: string): string
    requires section in KnownSections
  {
    if section == "about" then "Sobre m\U{ED}"
    else if section == "projects" then "Proyectos"
    else "Contacto"
  }

  /** The paragraph text of each known section. */
  const AboutText: string :=
    "Hola \U{1F44B} Soy un desarrollador apasionado por crear experiencias interactivas inspiradas en el estilo PS Vita."
  const ProjectsText: string :=
    "Aqu\U{ED} mostrar\U{E9} mis proyectos m\U{E1}s destacados con animaciones y efectos."
  const ContactText: string :=
    "Puedes escribirme a <b>miemail@ejemplo.com</b> o seguirme en redes sociales."

  /** `s` begins with `prefix`. */
  predicate StartsWith(s: string, prefix: string) {
    |prefix| <= |s| && s[..|prefix|] == prefix
  }

  /** A section's content: its heading, then one paragraph. */
  function SectionHtml(title: string, text: string): (html: string)
    ensures StartsWith(html, "<h2>" + title + "</h2>")
  {
    var heading := "<h2>" + title + "</h2>";
    var html := heading + "<p>" + text + "</p>";
    assert html[..|heading|] == heading;
    html
  }

  /**
   `openSection(section)`: the area is always shown; a known section's content
   replaces the old one and opens with that section's heading; any other
   section leaves the content as it was.
   */
  function OpenSection(c: ContentArea, section: string): (r: ContentArea)
    ensures !r.hidden
    ensures section in KnownSections ==> StartsWith(r.html, "<h2>" + TitleOf(section) + "</h2>")
    ensures section !in KnownSections ==> r.html == c.html
  {
    var shown := c.(hidden := false);
    if section == "about" then shown.(html := SectionHtml("Sobre m\U{ED}", AboutText))
    else if section == "projects" then shown.(html := SectionHtml("Proyectos", ProjectsText))
    else if section == "contact" then shown.(html := SectionHtml("Contacto", ContactText))
    else shown
  }

  /** Opening the same section twice is opening it once. */
  lemma OpenSectionIdempotent(c: ContentArea, section: string)
    ensures OpenSection(OpenSection(c, section), section) == OpenSection(c, section)
  {
  }

  /** A known section's result does not depend on what the area showed before. */
  lemma KnownSectionOverwrites(c: ContentArea, d: ContentArea, section: string)
    requires section in KnownSections
    ensures OpenSection(c, section) == OpenSection(d, section)
  {
  }

  /**
   Of two calls, a known second section wins outright, and an unknown second
   section only re-shows what the first one left.
   */
  lemma OpenSectionTwice(c: ContentArea, a: string, b: string)
    ensures b in KnownSections ==> OpenSection(OpenSection(c, a), b) == OpenSection(c, b)
    ensures b !in KnownSections ==> OpenSection(OpenSection(c, a), b) == OpenSection(c, a)
  {
  }

  /** The three known sections produce three different contents. */
  lemma KnownSectionsDistinct(c: ContentArea, a: string, b: string)
    requires a in KnownSections && b in KnownSections
    requires OpenSection(c, a).html == OpenSection(c, b).html
    ensures a == b
  {
  }
}
